=== FILE: README.md ===
# Grading session persistence — a Dafny model

This project models the core of an interactive essay-grading workbench
(`grading_app.py`). It covers the grading-session state and the rules that
keep it consistent with the one auto-save record across reruns, reloads and
re-uploads.

A teacher uploads a spreadsheet of submissions. They step through the rows
and give each a score from 0 to 15, in two steps: a coarse tier proposes a
default, then an exact score can be clicked. The session keeps:

- the current row;
- one score per row, with -1 meaning "unscored";
- a snapshot of the scores taken at the last save;
- the prompt text;
- the fingerprint of the uploaded file;
- a flag recording that the teacher asked to restore earlier progress.

The durable store is one JSON record (`auto_save.json`). It holds the scores,
the prompt, the index and the fingerprint. A later upload restores the record
only when its fingerprint matches the fingerprint of the new dataset.

Layout, one module per component:

- `wrappers.dfy` (`Wrappers`): `Option`.
- `datasets.dfy` (`Datasets`): datasets, required columns, fingerprint truthiness.
- `scores.dfy` (`Scores`): sentinel, score range, tiers, progress count, export column.
- `store.dfy` (`Store`): the durable record.
- `session.dfy` (`SessionState`): session state, world (session plus record), initial state.
- `persistence.dfy` (`Persistence`): `save_to_file`, `save_progress`, `load_from_file`, `auto_save_callback`.
- `grading.dfy` (`Grading`): index clamp, tier and score selection, navigation, prompt edit, progress, export.
- `uploading.dfy` (`Uploading`): restore request and upload.
- `machine.dfy` (`Machine`): events, transition function, runs, the invariant and its preservation.
- `findings.dfy` (`Findings`): the upload as written and the input showing its defect.

Modelling choices:

- Each rerun of the script is split into its events: timer tick, prompt edit,
  upload, render of the current row, navigation click and save click. Each
  event is a pure function on a `World`, which is the session plus
  `Option<Record>`.
- The fingerprint is a parameter `fp: Dataset -> Fingerprint`. The model does
  not look inside it. The invariant assumes only `FingerprintFixesLength`:
  two datasets with equal fingerprints have equally many rows.
- Python truthiness is modelled where the code relies on it. An empty score
  list blocks saving. A fingerprint equal to 0 counts as "not set", so such a
  dataset is never restored.
- Python's negative list indexing is modelled in `Render`. It is reachable
  only from a hand-edited record.

Where the code behaves in ways a reader may not expect, the model follows the code:

- A restore that finds no matching record leaves the restore flag set. Only a
  successful restore clears it.
- An index past the end is reset to row 0, not to the last row.
- Rendering an unscored row at once writes the chosen tier's default and saves
  it. So a row merely looked at counts as graded. Once the row has a score,
  changing the tier has no effect (`Grading.TierIgnoredOnceShown`).
- A score click always calls the save. Clicking the score the row already has
  leaves the same record (`Grading.ClickingSameScoreTwiceIsStable`).
- Every score or prompt change saves within its own event. So in every
  reachable state the snapshot equals the scores, and the timer's auto-save
  never has anything to do (`Machine.TimerTickIsNoOp`).
- The code records the new file's fingerprint before it checks the columns.
  See "Findings"; the rest of the model uses the corrected upload, and the
  invariant and its consequences hold for that corrected upload only.

## Model

| member | source | states |
|---|---|---|
| `Scores.TierDefaultsAreExactly` | grading_app.py:227-233 | a score is some tier's default exactly when it is 2, 5, 8, 11 or 14 |
| `Scores.TierDefaultIsMonotonic` | grading_app.py:227-233 | a higher tier proposes a strictly higher default, and conversely |
| `Scores.GradedCount` | grading_app.py:336 | the progress count is at most the row count; it is 0 exactly when every row is unscored and equals the row count exactly when none is |
| `Scores.GradedCountIsNonSentinelCount` | grading_app.py:336 | the progress count equals the number of entries minus the occurrences of -1 |
| `Scores.GradedCountAfterWrite` | grading_app.py:298-300 | writing one entry changes the progress count only by that entry's old and new graded status |
| `Scores.ExportColumnRoundTrip` | grading_app.py:350-351 | the exported column shows the placeholder exactly for -1 rows, keeps every other score unchanged, and reads back to the scores |
| `Scores.ExportedNumbersAreGraded` | grading_app.py:351 | the number of rows exported as numbers equals the progress count |
| `Persistence.SaveToFile` | grading_app.py:52-69 | writes a record with the scores, prompt, index and fingerprint exactly when a dataset is loaded and scores are non-empty; otherwise the store is unchanged and the result is false |
| `Persistence.SaveProgress` | grading_app.py:94-105 | under the same guard, the snapshot becomes the scores and the record is replaced; when the guard fails nothing changes and the result is false |
| `Persistence.LoadFromFile` | grading_app.py:71-92 | restores exactly when the record exists and the session's fingerprint is set and equal to it; a restore takes scores, prompt (default "") and index (default 0) from the record and sets the snapshot to the scores; otherwise the session is untouched |
| `Persistence.AutoSave` | grading_app.py:107-112 | with no dataset or a clean snapshot nothing changes, and nothing changes either when the save guard fails; with a dirty snapshot and scores the session is saved and the snapshot equals the scores afterwards |
| `Persistence.AutoSaveIsIdempotent` | grading_app.py:107-112 | a second auto-save with nothing changed in between is a no-op |
| `Persistence.SaveProgressIsIdempotent` | grading_app.py:94-105 | saving twice in a row leaves the same state and record as saving once |
| `Persistence.SaveThenLoadRestores` | grading_app.py:56-86 | a record written by a save is restored by any session with the same set fingerprint to the saved scores, prompt and index, with the snapshot equal to the scores |
| `Grading.ClampIndex` | grading_app.py:197-198 | an index at or past the end becomes 0 (not the last row), any other index is kept, and the result is a row whenever the input is non-negative |
| `Grading.Render` | grading_app.py:241-300 | with no dataset nothing changes; when the sheet has no rows or the clamped index has no score, the lookup fails and only the clamp takes effect; an index at or past the end is reset to 0 and row 0 is then rendered (see `Grading.RenderAfterClamp`); on a row, a click writes that score to the current row and saves; without a click an unscored row gets the tier default and is saved, and a scored row is left as it is; valid scores stay valid |
| `Grading.Previous` | grading_app.py:311-312 | disabled on row 0; otherwise moves back one row; only the index changes and it stays a row |
| `Grading.Next` | grading_app.py:316-317 | disabled on the last row; otherwise moves on one row; only the index changes and it stays a row |
| `Grading.JumpTo` | grading_app.py:321-331 | a target in 1..row count sets the 0-based index to target-1; any other target changes nothing |
| `Grading.EditPrompt` | grading_app.py:147-149 | a changed prompt is stored and, under the save guard, saved at once even if the scores are unchanged, with only the prompt and the snapshot changing in the session and the record carrying the session's fingerprint; an unchanged prompt changes nothing |
| `Grading.Progress` | grading_app.py:336 | the count of scored rows equals the row count minus the occurrences of -1 |
| `Grading.AssignColumn` | grading_app.py:350-353 | assigning a column by name overwrites an existing column of that name in place, otherwise appends it; every cell under that name becomes the new value and every other cell is unchanged |
| `Grading.ExportTable` | grading_app.py:348-353 | the sheet exists exactly when there is one score per row; the headers are the original ones plus 得分 and 作文题目 where absent; every cell under 得分 shows the placeholder exactly for -1 and reads back to the score, every cell under 作文题目 is the prompt, and every other cell is the original one |
| `Grading.ReExportKeepsWidth` | grading_app.py:350-353 | exporting a sheet that already has both columns keeps its headers and row width |
| `Grading.RenderAfterClamp` | grading_app.py:197-300 | a render from an index at or past the end is exactly the render of row 0, including its default or click |
| `Grading.TierIgnoredOnceShown` | grading_app.py:249-300 | rendering an unscored row stores the tier default, after which any other tier leaves the state unchanged |
| `Grading.ClickingSameScoreTwiceIsStable` | grading_app.py:255-263 | clicking the same score a second time changes neither the session nor the record, whichever tier is selected on either render |
| `Uploading.RequestRestore` | grading_app.py:115-120 | the flag is set only while no dataset is loaded and a record exists; nothing else changes |
| `Uploading.Upload` | grading_app.py:156-187 | same content keeps progress; a missing column changes nothing; otherwise the session binds to the new dataset, restores from a matching record only if requested (clearing the flag exactly then) or starts unscored at row 0, and saves so the record carries the new fingerprint |
| `Machine.SaveEstablishesInv` | grading_app.py:94-105 | saving a well-formed session leaves the record holding the snapshot, prompt and fingerprint, and keeps the record loadable for every dataset with that fingerprint |
| `Machine.RenderPreservesInv` | grading_app.py:197-300 | rendering keeps the index on a row, every score -1 or in 0..15, and the record equal to the scores |
| `Machine.UploadPreservesInv` | grading_app.py:156-187 | an upload, restoring or not, keeps the invariant, including one score per row after a fingerprint-matched restore |
| `Machine.StepPreservesInv` | grading_app.py:107-332 | every event keeps the invariant |
| `Machine.RunPreservesInv` | grading_app.py:107-332 | every sequence of events keeps the invariant |
| `Machine.ReachableSessionsAreSound` | grading_app.py:193-332 | from a new session over any record the program could have written with the corrected upload, every run keeps the index on a row, one valid score per row, and the record equal to the scores under the dataset's fingerprint |
| `Machine.TimerTickIsNoOp` | grading_app.py:122-137 | in every state satisfying the invariant the timer's auto-save changes nothing |
| `Machine.RestartRecoversProgress` | grading_app.py:114-187 | a reload, a restore request and the re-upload of the same dataset give back exactly the last saved scores and prompt, and clear the flag |
| `Machine.MismatchedUploadStartsFresh` | grading_app.py:171-186 | an upload whose fingerprint the record does not carry starts all rows unscored at row 0 and replaces the old record |
| `Findings.UploadAsWritten` | grading_app.py:160-169 | as written, a refused upload still overwrites the session's fingerprint; every other upload behaves as the corrected one |
| `Findings.RejectedUploadLosesProgress` | grading_app.py:160-186 | for a concrete input, the as-written upload makes a later save stamp the scores with the refused file's fingerprint, so after a reload the score is lost and the record overwritten |
| `Findings.RejectedUploadBreaksOneScorePerRow` | grading_app.py:160-186 | for a concrete input and a fingerprint that equates only sheets with equal row counts, the as-written upload leaves a record that does not fit, and re-uploading the refused rows with fixed headers restores one score onto two rows, so the export cannot be built and rendering the second row changes nothing because its score lookup fails |
| `Findings.CorrectedUploadKeepsProgress` | grading_app.py:160-186 | the same interactions with the corrected upload restore the score and the prompt |

## Left out

- Streamlit rendering (widgets, images, columns, messages, `st.rerun`, `st.stop`): display only. Each rerun is one or more events.
- The JavaScript timer (grading_app.py:123-135): a browser mechanism. It is the `TimerTick` event, which runs the auto-save.
- The sixteen per-score click flags: a workaround for the framework. They are one optional pending click.
- The fingerprint computation (grading_app.py:161): foreign pandas and Python hashing. It is the parameter `fp`.
- `DataFrame.equals` (grading_app.py:164): content equality. It is equality of `Dataset` values.
- File and JSON I/O, directory creation, and their exceptions: the store is `Option<Record>`, and an unreadable file reads as absent. So the restore button, which the code shows for any existing file, sets no flag over an unreadable file in the model.
- A write that fails after `save_progress` took its snapshot: I/O failures are not modelled, so every guarded save succeeds.
- A record without `scores`, or whose `saved_time` has no space: these raise inside `load_from_file`, in the second case after scores, prompt and index were already assigned. `Record` always has scores and has no time field, so the model cannot represent such a record.
- Timestamps and the last-saved display (grading_app.py:61, 85, 99): wall-clock and display only.
- Excel writing and the download button: I/O. Only the column assignments of the score and the prompt are kept.
- Sheets with a repeated header: pandas assignment to a duplicated label is not modelled; `AssignColumn` overwrites every column of that name.
- Ragged datasets: a `Dataset` value may have rows of unequal length, which a data frame never has; the export's cell-level promises are stated for rectangular datasets.
- `save_counter` (grading_app.py:100): it only forces redraws.
- A spreadsheet that cannot be read at all (grading_app.py:158, 188-190): the run stops before any state changes, so it is no event.
- Event order within a rerun: navigation clicks are separate events after a render. In the source they are handled later in the same rerun as the render.
- An empty dataset: the source raises at the row lookup after the clamp (grading_app.py:200). `Render` models this as the rerun ending right after the clamp.
- The jump field rejecting a stored index outside its range: it can happen only with a hand-edited record, and it is not modelled.

## Findings

| source | as written | input that shows it | evidently intended | confidence | as-written member | corrected member |
|---|---|---|---|---|---|---|
| grading_app.py:161-169 | The upload stores the new file's fingerprint before checking for the required columns. A refused file therefore leaves the loaded dataset paired with the refused file's fingerprint, and the next save stamps the old scores with it. | Upload a one-row sheet and click 11. Upload a sheet with no columns (refused). Edit the prompt. Reload, request a restore and upload the first sheet again. No record matches, the row comes back unscored and the record is overwritten with -1. Worse: if the refused sheet had two rows and comes back with its headers fixed (same rows, so the same fingerprint when the fingerprint ignores headers), the restore puts the one saved score on two rows, and the second row's lookup and the export both fail. | A refused upload leaves the session, fingerprint included, untouched, so the progress can still be restored after a reload. | medium; not executed | `Findings.UploadAsWritten`, `Findings.RejectedUploadLosesProgress`, `Findings.RejectedUploadBreaksOneScorePerRow` | `Uploading.Upload`, `Machine.RestartRecoversProgress` |

=== FILE: datasets.dfy ===
/** The uploaded spreadsheet, its required columns and its fingerprint. */
module Datasets {
  import opened Wrappers

  /** The integer Python's `hash` returns for the summed row hashes of a dataset. */
  type Fingerprint = int

  /** A spreadsheet as read: its column headers and its rows of cells. Two
      datasets have the same content exactly when they are equal values, which
      is what `DataFrame.equals` decides. */
  datatype Dataset = Dataset(columns: seq<string>, rows: seq<seq<string>>)

  /** The three columns every uploaded sheet must have: two answer images and the rubric. */
  const RequiredColumns: seq<string> := ["学生作答图片1", "学生作答图片2", "评分标准"]

  predicate HasRequiredColumns(d: Dataset) {
    forall c :: c in RequiredColumns ==> c in d.columns
  }

  /** The fingerprint is a hash the model does not look inside. The only thing
      the invariants ask of it is that two datasets with the same fingerprint
      have the same number of rows, so a record matched by fingerprint has one
      score per row. */
  ghost predicate FingerprintFixesLength(fp: Dataset -> Fingerprint) {
    forall a, b :: fp(a) == fp(b) ==> |a.rows| == |b.rows|
  }

  /** Python truthiness of the session's `file_hash`: both "not set" and the
      integer 0 are false. */
  predicate HashIsSet(h: Option<Fingerprint>) {
    h.Some? && h.value != 0
  }
}

=== FILE: findings.dfy ===
/** The upload as the source writes it, which records the new file's
    fingerprint before checking its columns, and an input showing that this
    loses progress across a reload. The rest of the model uses
    `Uploading.Upload`, which records the fingerprint after the check. */
module Findings {
  import opened Wrappers
  import opened Datasets
  import opened Scores
  import opened Store
  import opened SessionState
  import opened Grading
  import opened Uploading

  /** The upload as written: identical to `Upload` except that a dataset
      refused for a missing column still overwrites the session's fingerprint. */
  function UploadAsWritten(fp: Dataset -> Fingerprint, w: World, d: Dataset): (r: World)
    ensures w.session.df != Some(d) && !HasRequiredColumns(d) ==>
              r == w.(session := w.session.(fileHash := Some(fp(d))))
    ensures w.session.df == Some(d) || HasRequiredColumns(d) ==> r == Upload(fp, w, d)
  {
    var s := w.session.(fileHash := Some(fp(d)));
    if w.session.df != Some(d) && !HasRequiredColumns(d) then w.(session := s)
    else Upload(fp, w, d)
  }

  /** A fingerprint that tells the two example sheets apart. */
  function ColumnCountHash(d: Dataset): Fingerprint {
    |d.columns| + 1
  }

  /** A correct sheet with one submission, and a sheet with no columns. */
  const Good: Dataset := Dataset(RequiredColumns, [["a.png", "b.png", "rubric"]])
  const Bad: Dataset := Dataset([], [[]])

  /** The discrepancy: grade the one row 11, upload the bad sheet by mistake
      (refused), edit the prompt, reload and ask to restore the good sheet.
      As written, the prompt edit saved the scores under the bad sheet's
      fingerprint, so the restore finds no match and the record is
      overwritten with an unscored row: the 11 is lost. */
  lemma RejectedUploadLosesProgress()
    ensures var graded := Render(Upload(ColumnCountHash, World(Init, None), Good), Poor, Some(11));
      var afterBad := UploadAsWritten(ColumnCountHash, graded, Bad);
      var edited := EditPrompt(afterBad, "essay");
      var reloaded := RequestRestore(World(Init, edited.store));
      var restored := Upload(ColumnCountHash, reloaded, Good);
      && graded.session.scores == [11]
      && edited.store.Some? && edited.store.value.fileHash == Some(ColumnCountHash(Bad))
      && restored.session.scores == [Unscored]
      && restored.store.Some? && restored.store.value.scores == [Unscored]
  {
    var fp := ColumnCountHash;
    assert HasRequiredColumns(Good);
    assert !HasRequiredColumns(Bad) by {
      assert RequiredColumns[0] in RequiredColumns;
    }
    var loaded := Upload(fp, World(Init, None), Good);
    assert loaded.session.scores == [Unscored];
    var graded := Render(loaded, Poor, Some(11));
    assert OnRow(loaded.session);
    assert graded.session.scores == [11];
    var afterBad := UploadAsWritten(fp, graded, Bad);
    assert afterBad.session.fileHash == Some(1);
    var edited := EditPrompt(afterBad, "essay");
    assert edited.store == Some(Record([11], Some("essay"), Some(0), Some(1)));
    var reloaded := RequestRestore(World(Init, edited.store));
    assert !RestoresFrom(reloaded.session, reloaded.store, fp, Good);
  }

  /** A fingerprint that depends on the rows only, not on the column headers,
      so a sheet keeps its fingerprint when its headers are fixed. */
  function RowCountHash(d: Dataset): Fingerprint {
    |d.rows| + 1
  }

  /** A two-row sheet refused for its headers, and the same rows with the headers fixed. */
  const BadTwoRows: Dataset := Dataset([], [["x"], ["y"]])
  const FixedTwoRows: Dataset := Dataset(RequiredColumns, [["x"], ["y"]])

  /** The stronger consequence: as written, the refused sheet's fingerprint
      stamps a one-score record, and once the sheet comes back with its
      headers fixed (same rows, same fingerprint) the restore puts one score
      on two rows. The record does not fit, the second row has no score and
      the export cannot be built. The fingerprint used here only ever equates
      sheets with the same number of rows. */
  lemma RejectedUploadBreaksOneScorePerRow()
    ensures FingerprintFixesLength(RowCountHash)
    ensures var graded := Render(Upload(RowCountHash, World(Init, None), Good), Poor, Some(11));
      var edited := EditPrompt(UploadAsWritten(RowCountHash, graded, BadTwoRows), "essay");
      var restored := Upload(RowCountHash, RequestRestore(World(Init, edited.store)), FixedTwoRows);
      && edited.store.Some? && !RecordFits(RowCountHash, edited.store.value)
      && restored.session.df == Some(FixedTwoRows)
      && |restored.session.scores| == 1 && |FixedTwoRows.rows| == 2
      && ExportTable(restored.session).None?
      && var moved := restored.(session := Next(restored.session));
         moved.session.index == 1 && Render(moved, Poor, None) == moved
  {
    var fp := RowCountHash;
    assert HasRequiredColumns(Good);
    assert HasRequiredColumns(FixedTwoRows);
    assert !HasRequiredColumns(BadTwoRows) by {
      assert RequiredColumns[0] in RequiredColumns;
    }
    var loaded := Upload(fp, World(Init, None), Good);
    assert OnRow(loaded.session);
    var graded := Render(loaded, Poor, Some(11));
    assert graded.session.scores == [11];
    var afterBad := UploadAsWritten(fp, graded, BadTwoRows);
    assert afterBad.session.fileHash == Some(3);
    var edited := EditPrompt(afterBad, "essay");
    assert edited.store == Some(Record([11], Some("essay"), Some(0), Some(3)));
    assert edited.store.value.fileHash == Some(fp(FixedTwoRows));
    var reloaded := RequestRestore(World(Init, edited.store));
    assert RestoresFrom(reloaded.session, reloaded.store, fp, FixedTwoRows);
  }

  /** The same interactions with the corrected upload keep the 11. */
  lemma CorrectedUploadKeepsProgress()
    ensures var graded := Render(Upload(ColumnCountHash, World(Init, None), Good), Poor, Some(11));
      var afterBad := Upload(ColumnCountHash, graded, Bad);
      var edited := EditPrompt(afterBad, "essay");
      var reloaded := RequestRestore(World(Init, edited.store));
      var restored := Upload(ColumnCountHash, reloaded, Good);
      && restored.session.scores == [11]
      && restored.session.prompt == "essay"
  {
    var fp := ColumnCountHash;
    assert HasRequiredColumns(Good);
    assert !HasRequiredColumns(Bad) by {
      assert RequiredColumns[0] in RequiredColumns;
    }
    var loaded := Upload(fp, World(Init, None), Good);
    assert OnRow(loaded.session);
    var graded := Render(loaded, Poor, Some(11));
    assert graded.session.scores == [11];
    var edited := EditPrompt(Upload(fp, graded, Bad), "essay");
    assert edited.store == Some(Record([11], Some("essay"), Some(0), Some(4)));
    var reloaded := RequestRestore(World(Init, edited.store));
    assert RestoresFrom(reloaded.session, reloaded.store, fp, Good);
  }
}

=== FILE: grading.dfy ===
/** The grading screen: the index clamp, the two-step score selection,
    navigation, the prompt field, the progress count and the export. Each
    function is what one rerun does for one kind of interaction. */
module Grading {
  import opened Wrappers
  import opened Datasets
  import opened Scores
  import opened SessionState
  import opened Persistence

  /** The session is on a real row: a dataset is loaded, there is one score
      per row and the index points at one of them. */
  predicate OnRow(s: Session) {
    s.df.Some? && |s.scores| == |s.df.value.rows| && 0 <= s.index < |s.scores|
  }

  /** An index at or past the end is reset to the first row, not the last. */
  function ClampIndex(i: int, total: nat): (r: int)
    ensures i < total ==> r == i
    ensures i >= total ==> r == 0
    ensures 0 <= i && total > 0 ==> 0 <= r < total
  {
    if i >= total then 0 else i
  }

  /** Python sequence indexing: a negative index counts from the end; an index
      outside both ranges raises and ends the rerun. */
  function PyIndex(i: int, n: nat): (r: Option<nat>)
    ensures 0 <= i < n ==> r == Some(i)
    ensures r.Some? ==> r.value < n && (r.value == i || r.value == i + n)
    ensures r.None? <==> i >= n || i + n < 0
  {
    if 0 <= i < n then Some(i) else if i < 0 && 0 <= i + n then Some(i + n) else None
  }

  /** One render of the grading screen with tier `tier` chosen and, when
      `click` is present, the exact score the teacher clicked on the previous
      run. The index is clamped first. A click is written to the current row
      and saved. Without a click, an unscored row receives the tier's default
      score, which is saved; a scored row is left as it is. */
  function Render(w: World, tier: Tier, click: Option<ScoreValue>): (r: World)
    ensures w.session.df.None? ==> r == w
    ensures w.session.df.Some? && w.session.index >= Total(w.session) ==> r.session.index == 0
    ensures w.session.df.Some? && 0 <= w.session.index
            && (Total(w.session) == 0 || ClampIndex(w.session.index, Total(w.session)) >= |w.session.scores|) ==>
              r == w.(session := w.session.(index := ClampIndex(w.session.index, Total(w.session))))
    ensures OnRow(w.session) && click.Some? ==>
              && r.session == w.session.(scores := w.session.scores[w.session.index := click.value],
                                         saved := Some(w.session.scores[w.session.index := click.value]))
              && r.store == Some(RecordOf(r.session))
    ensures OnRow(w.session) && click.None? && w.session.scores[w.session.index] == Unscored ==>
              && r.session == w.session.(scores := w.session.scores[w.session.index := TierDefault(tier)],
                                         saved := Some(w.session.scores[w.session.index := TierDefault(tier)]))
              && r.store == Some(RecordOf(r.session))
    ensures OnRow(w.session) && click.None? && w.session.scores[w.session.index] != Unscored ==> r == w
    ensures ValidScores(w.session.scores) ==> ValidScores(r.session.scores)
    ensures |r.session.scores| == |w.session.scores|
    ensures r.session.df == w.session.df && r.session.prompt == w.session.prompt && r.session.fileHash == w.session.fileHash
  {
    var s := w.session;
    if s.df.None? then w
    else
      var total := |s.df.value.rows|;
      var s1 := s.(index := ClampIndex(s.index, total));
      var row := PyIndex(s1.index, total);
      var slot := PyIndex(s1.index, |s1.scores|);
      if row.None? || slot.None? then World(s1, w.store)
      else
        var k := slot.value;
        var current := s1.scores[k];
        var shown := if current == Unscored then TierDefault(tier) else current;
        match click
        case Some(v) => SaveProgress(World(s1.(scores := s1.scores[k := v]), w.store)).world
        case None =>
          if current != shown then SaveProgress(World(s1.(scores := s1.scores[k := shown]), w.store)).world
          else World(s1, w.store)
  }

  /** The previous-row button: disabled on the first row, otherwise one row back. */
  function Previous(s: Session): (r: Session)
    ensures r == s.(index := r.index)
    ensures s.df.None? || s.index == 0 ==> r == s
    ensures s.df.Some? && s.index != 0 ==> r.index == s.index - 1
    ensures r.index == s.index || r.index == s.index - 1
    ensures OnRow(s) ==> OnRow(r)
  {
    if s.df.Some? && s.index != 0 then s.(index := s.index - 1) else s
  }

  /** The next-row button: disabled on the last row, otherwise one row on. */
  function Next(s: Session): (r: Session)
    ensures r == s.(index := r.index)
    ensures s.df.None? || s.index >= Total(s) - 1 ==> r == s
    ensures s.df.Some? && s.index < Total(s) - 1 ==> r.index == s.index + 1
    ensures r.index == s.index || r.index == s.index + 1
    ensures OnRow(s) ==> OnRow(r)
  {
    if s.df.Some? && s.index < Total(s) - 1 then s.(index := s.index + 1) else s
  }

  /** The jump field takes a 1-based row number between 1 and the row count;
      any other entry is refused by the field and changes nothing. */
  function JumpTo(s: Session, target: int): (r: Session)
    ensures r == s.(index := r.index)
    ensures s.df.Some? && 1 <= target <= Total(s) ==> r.index == target - 1
    ensures !(s.df.Some? && 1 <= target <= Total(s)) ==> r == s
    ensures OnRow(s) ==> OnRow(r)
  {
    if s.df.Some? && 1 <= target <= Total(s) && target != s.index + 1 then s.(index := target - 1) else s
  }

  /** Editing the prompt stores the new text and saves at once (under the
      save guard), whether or not the scores changed. */
  function EditPrompt(w: World, text: string): (r: World)
    ensures r.session.prompt == text
    ensures text == w.session.prompt ==> r == w
    ensures text != w.session.prompt && CanSave(w.session) ==>
              r.session == w.session.(prompt := text, saved := Some(w.session.scores))
              && r.store == Some(RecordOf(r.session))
    ensures text != w.session.prompt && !CanSave(w.session) ==> r == w.(session := w.session.(prompt := text))
    ensures r.session.scores == w.session.scores && r.session.index == w.session.index && r.session.df == w.session.df
  {
    if text != w.session.prompt then SaveProgress(w.(session := w.session.(prompt := text))).world else w
  }

  /** The number of scored rows shown beside the row count. */
  function Progress(s: Session): (r: nat)
    ensures r <= |s.scores|
    ensures r == |s.scores| - multiset(s.scores)[Unscored]
  {
    GradedCountIsNonSentinelCount(s.scores);
    GradedCount(s.scores)
  }

  /** The headers of the two columns the export assigns. */
  const ScoreColumn: string := "得分"
  const PromptColumn: string := "作文题目"

  /** A sheet of cells under named columns. */
  datatype Sheet = Sheet(columns: seq<string>, rows: seq<seq<Cell>>)

  /** Every row has one cell per column, as in any data frame. */
  predicate Rectangular<T>(width: nat, rows: seq<seq<T>>) {
    forall i :: 0 <= i < |rows| ==> |rows[i]| == width
  }

  /** Assigning a whole column by name: an existing column of that name is
      overwritten in place, otherwise the column is appended at the end. */
  function AssignColumn(sheet: Sheet, name: string, values: seq<Cell>): (r: Sheet)
    requires |values| == |sheet.rows|
    ensures |r.rows| == |sheet.rows|
    ensures name in sheet.columns ==> r.columns == sheet.columns
    ensures name !in sheet.columns ==> r.columns == sheet.columns + [name]
    ensures Rectangular(|sheet.columns|, sheet.rows) ==> Rectangular(|r.columns|, r.rows)
    ensures Rectangular(|sheet.columns|, sheet.rows) ==>
              forall i, j :: 0 <= i < |r.rows| && 0 <= j < |r.columns| ==>
                && (r.columns[j] == name ==> r.rows[i][j] == values[i])
                && (r.columns[j] != name ==> j < |sheet.columns| && r.rows[i][j] == sheet.rows[i][j])
  {
    if name in sheet.columns then
      Sheet(sheet.columns,
            seq(|sheet.rows|, i requires 0 <= i < |sheet.rows| =>
              seq(|sheet.rows[i]|, j requires 0 <= j < |sheet.rows[i]| =>
                if j < |sheet.columns| && sheet.columns[j] == name then values[i] else sheet.rows[i][j])))
    else
      Sheet(sheet.columns + [name],
            seq(|sheet.rows|, i requires 0 <= i < |sheet.rows| => sheet.rows[i] + [values[i]]))
  }

  /** The loaded dataset as a sheet of text cells. */
  function SheetOf(d: Dataset): (r: Sheet)
    ensures r.columns == d.columns && |r.rows| == |d.rows|
    ensures forall i :: 0 <= i < |d.rows| ==> |r.rows[i]| == |d.rows[i]|
    ensures forall i, j :: 0 <= i < |d.rows| && 0 <= j < |d.rows[i]| ==> r.rows[i][j] == Text(d.rows[i][j])
  {
    Sheet(d.columns, seq(|d.rows|, i requires 0 <= i < |d.rows| =>
      seq(|d.rows[i]|, j requires 0 <= j < |d.rows[i]| => Text(d.rows[i][j]))))
  }

  /** The exported sheet: the dataset with the score column assigned (the
      placeholder for an unscored row, the score otherwise) and then the
      prompt column assigned, each overwriting a column of that name already
      present or else appended. Assigning a score list of the wrong length
      raises, which is the `None` case. */
  function ExportTable(s: Session): (r: Option<Sheet>)
    ensures r.Some? <==> s.df.Some? && |s.scores| == |s.df.value.rows|
    ensures r.Some? ==> |r.value.rows| == |s.scores|
    ensures r.Some? ==>
              r.value.columns == s.df.value.columns
                                 + (if ScoreColumn in s.df.value.columns then [] else [ScoreColumn])
                                 + (if PromptColumn in s.df.value.columns then [] else [PromptColumn])
    ensures r.Some? && Rectangular(|s.df.value.columns|, s.df.value.rows) ==>
              && Rectangular(|r.value.columns|, r.value.rows)
              && forall i, j :: 0 <= i < |r.value.rows| && 0 <= j < |r.value.columns| ==>
                   && (r.value.columns[j] == ScoreColumn ==>
                         && ImportCell(r.value.rows[i][j]) == s.scores[i]
                         && (r.value.rows[i][j] == Text(Placeholder) <==> s.scores[i] == Unscored))
                   && (r.value.columns[j] == PromptColumn ==> r.value.rows[i][j] == Text(s.prompt))
                   && (r.value.columns[j] != ScoreColumn && r.value.columns[j] != PromptColumn ==>
                         j < |s.df.value.columns| && r.value.rows[i][j] == Text(s.df.value.rows[i][j]))
  {
    if s.df.Some? && |s.scores| == |s.df.value.rows| then
      var d := s.df.value;
      var scored := AssignColumn(SheetOf(d), ScoreColumn, ExportColumn(s.scores));
      Some(AssignColumn(scored, PromptColumn, seq(|d.rows|, _ => Text(s.prompt))))
    else
      None
  }

  /** Exporting a sheet that was itself exported (so it already has both
      columns) keeps its headers and the width of every row. */
  lemma ReExportKeepsWidth(s: Session)
    requires s.df.Some? && |s.scores| == |s.df.value.rows|
    requires ScoreColumn in s.df.value.columns && PromptColumn in s.df.value.columns
    requires Rectangular(|s.df.value.columns|, s.df.value.rows)
    ensures ExportTable(s).Some?
    ensures ExportTable(s).value.columns == s.df.value.columns
    ensures Rectangular(|s.df.value.columns|, ExportTable(s).value.rows)
  {
  }

  /** A render from an index at or past the end is the render of row 0: the
      reset happens first and the row is then shown and scored as usual. */
  lemma RenderAfterClamp(w: World, tier: Tier, click: Option<ScoreValue>)
    requires w.session.df.Some? && w.session.index >= Total(w.session)
    ensures Render(w, tier, click) == Render(w.(session := w.session.(index := 0)), tier, click)
  {
  }

  /** Once a row is shown, changing the tier no longer changes its score: the
      tier only supplies a default for a row that has none. */
  lemma TierIgnoredOnceShown(w: World, t: Tier, u: Tier)
    requires OnRow(w.session) && w.session.scores[w.session.index] == Unscored
    ensures var shown := Render(w, t, None);
      && shown.session.scores[w.session.index] == TierDefault(t)
      && Render(shown, u, None) == shown
  {
  }

  /** Clicking the score a row already has changes nothing, whichever tier is
      selected on either render: after a click the tier plays no part. */
  lemma ClickingSameScoreTwiceIsStable(w: World, v: ScoreValue, t: Tier, u: Tier)
    requires OnRow(w.session)
    ensures var once := Render(w, t, Some(v));
      Render(once, u, Some(v)) == once
  {
    var once := Render(w, t, Some(v));
    var k := w.session.index;
    assert OnRow(once.session);
    assert once.session.scores[k := v] == once.session.scores;
  }
}

=== FILE: machine.dfy ===
/** The grading session as a state machine: one event per interaction, each
    processed to completion, and the invariant every event preserves. */
module Machine {
  import opened Wrappers
  import opened Datasets
  import opened Scores
  import opened Store
  import opened SessionState
  import opened Persistence
  import opened Grading
  import opened Uploading

  /** The interactions. A browser reload starts a new session over the same
      record; the timer only forces a rerun, whose effect is the auto-save. */
  datatype Event =
    | Restart
    | RestoreRequested
    | PromptEdited(text: string)
    | FileUploaded(file: Dataset)
    | TimerTick
    | RowRendered(tier: Tier, click: Option<ScoreValue>)
    | PreviousClicked
    | NextClicked
    | JumpEntered(target: int)
    | SaveClicked

  function Step(fp: Dataset -> Fingerprint, w: World, e: Event): World {
    match e
    case Restart => World(Init, w.store)
    case RestoreRequested => RequestRestore(w)
    case PromptEdited(text) => EditPrompt(w, text)
    case FileUploaded(d) => Upload(fp, w, d)
    case TimerTick => AutoSave(w)
    case RowRendered(tier, click) => Render(w, tier, click)
    case PreviousClicked => w.(session := Previous(w.session))
    case NextClicked => w.(session := Next(w.session))
    case JumpEntered(target) => w.(session := JumpTo(w.session, target))
    case SaveClicked => SaveProgress(w).world
  }

  function Run(fp: Dataset -> Fingerprint, w: World, events: seq<Event>): World
    decreases |events|
  {
    if events == [] then w else Run(fp, Step(fp, w, events[0]), events[1..])
  }

  /** The in-memory half of the invariant for a loaded dataset: its columns
      were checked, the fingerprint is its own, there is one valid score per
      row, the snapshot equals the scores, and the index is a row (0 for an
      empty dataset). */
  ghost predicate Bound(fp: Dataset -> Fingerprint, s: Session)
    requires s.df.Some?
  {
    var d := s.df.value;
    && HasRequiredColumns(d)
    && s.fileHash == Some(fp(d))
    && |s.scores| == |d.rows|
    && ValidScores(s.scores)
    && s.saved == Some(s.scores)
    && (if |d.rows| > 0 then 0 <= s.index < |d.rows| else s.index == 0)
  }

  /** The durable half: for a non-empty loaded dataset the record holds the
      snapshot, the prompt and the dataset's fingerprint. */
  ghost predicate Synced(fp: Dataset -> Fingerprint, s: Session, store: Option<Record>)
    requires s.df.Some?
  {
    |s.df.value.rows| > 0 ==>
      && store.Some?
      && Some(store.value.scores) == s.saved
      && store.value.essayPrompt == Some(s.prompt)
      && store.value.fileHash == Some(fp(s.df.value))
  }

  ghost predicate Inv(fp: Dataset -> Fingerprint, w: World) {
    && (w.store.Some? ==> RecordFits(fp, w.store.value))
    && (w.session.df.Some? ==> Bound(fp, w.session) && Synced(fp, w.session, w.store))
  }

  /** Saving a session whose in-memory half holds re-establishes the whole invariant. */
  lemma SaveEstablishesInv(fp: Dataset -> Fingerprint, w: World)
    requires FingerprintFixesLength(fp)
    requires w.store.Some? ==> RecordFits(fp, w.store.value)
    requires w.session.df.Some?
    requires var s := w.session; var d := s.df.value;
      && HasRequiredColumns(d) && s.fileHash == Some(fp(d)) && |s.scores| == |d.rows| && ValidScores(s.scores)
      && (if |d.rows| > 0 then 0 <= s.index < |d.rows| else s.index == 0)
      && (|d.rows| == 0 ==> s.saved == Some(s.scores))
    ensures Inv(fp, SaveProgress(w).world)
  {
    var s := w.session;
    var d := s.df.value;
    if |d.rows| > 0 {
      var rec := RecordOf(s);
      forall e | rec.fileHash == Some(fp(e))
        ensures |e.rows| == |rec.scores|
      {
        assert fp(e) == fp(d);
      }
    }
  }

  lemma RenderPreservesInv(fp: Dataset -> Fingerprint, w: World, tier: Tier, click: Option<ScoreValue>)
    requires FingerprintFixesLength(fp) && Inv(fp, w)
    ensures Inv(fp, Render(w, tier, click))
  {
    var s := w.session;
    if s.df.Some? && |s.df.value.rows| > 0 {
      assert OnRow(s);
      var k := s.index;
      var v := match click case Some(c) => c case None => TierDefault(tier);
      if click.Some? || s.scores[k] == Unscored {
        SaveEstablishesInv(fp, World(s.(scores := s.scores[k := v]), w.store));
      }
    }
  }

  lemma UploadPreservesInv(fp: Dataset -> Fingerprint, w: World, d: Dataset)
    requires FingerprintFixesLength(fp) && Inv(fp, w)
    ensures Inv(fp, Upload(fp, w, d))
  {
    var s := w.session;
    if s.df != Some(d) && HasRequiredColumns(d) {
      var reset := Fresh(s, d, fp(d));
      var loaded := if s.restoreOnLoad then LoadFromFile(reset, w.store) else LoadOutcome(reset, false);
      var bound := if loaded.restored then loaded.session.(restoreOnLoad := false) else loaded.session;
      if loaded.restored {
        var rec := w.store.value;
        assert rec.fileHash == Some(fp(d));
        assert |rec.scores| == |d.rows|;
      }
      SaveEstablishesInv(fp, World(bound, w.store));
    }
  }

  /** Every event keeps the invariant. */
  lemma StepPreservesInv(fp: Dataset -> Fingerprint, w: World, e: Event)
    requires FingerprintFixesLength(fp) && Inv(fp, w)
    ensures Inv(fp, Step(fp, w, e))
  {
    match e
    case FileUploaded(d) => UploadPreservesInv(fp, w, d);
    case RowRendered(tier, click) => RenderPreservesInv(fp, w, tier, click);
    case PromptEdited(text) =>
      if w.session.df.Some? && text != w.session.prompt {
        SaveEstablishesInv(fp, w.(session := w.session.(prompt := text)));
      }
    case _ =>
  }

  /** Every sequence of events keeps the invariant. */
  lemma {:induction false} RunPreservesInv(fp: Dataset -> Fingerprint, w: World, events: seq<Event>)
    requires FingerprintFixesLength(fp) && Inv(fp, w)
    ensures Inv(fp, Run(fp, w, events))
    decreases |events|
  {
    if events != [] {
      StepPreservesInv(fp, w, events[0]);
      RunPreservesInv(fp, Step(fp, w, events[0]), events[1..]);
    }
  }

  /** From a new session over any record the program could have written with
      the corrected upload, whatever the teacher does: the index stays on a row, there is one score
      per row, every score is the sentinel or in 0..15, and the record holds
      exactly the in-memory scores under the dataset's own fingerprint. */
  lemma ReachableSessionsAreSound(fp: Dataset -> Fingerprint, store: Option<Record>, events: seq<Event>)
    requires FingerprintFixesLength(fp)
    requires store.Some? ==> RecordFits(fp, store.value)
    ensures var s := Run(fp, World(Init, store), events).session;
      s.df.Some? && |s.df.value.rows| > 0 ==>
        && 0 <= s.index < |s.df.value.rows|
        && |s.scores| == |s.df.value.rows|
        && ValidScores(s.scores)
        && Run(fp, World(Init, store), events).store.Some?
        && Run(fp, World(Init, store), events).store.value.scores == s.scores
        && Run(fp, World(Init, store), events).store.value.fileHash == Some(fp(s.df.value))
  {
    RunPreservesInv(fp, World(Init, store), events);
  }

  /** Every score mutation is saved within its own event, so the timer's
      auto-save never finds anything to do. */
  lemma TimerTickIsNoOp(fp: Dataset -> Fingerprint, w: World)
    requires Inv(fp, w)
    ensures Step(fp, w, TimerTick) == w
  {
  }

  /** Durability across a reload: after a restart, a restore request and the
      upload of the same dataset, the session holds exactly the last saved
      scores and prompt, and the request flag is cleared. (A dataset whose
      fingerprint is 0 never matches, because 0 reads as "no fingerprint".) */
  lemma RestartRecoversProgress(fp: Dataset -> Fingerprint, w: World, d: Dataset)
    requires Inv(fp, w)
    requires w.session.df == Some(d) && |d.rows| > 0 && fp(d) != 0
    ensures var r := Run(fp, w, [Restart, RestoreRequested, FileUploaded(d)]);
      && r.session.df == Some(d)
      && Some(r.session.scores) == w.session.saved
      && r.session.prompt == w.session.prompt
      && !r.session.restoreOnLoad
  {
    var w1 := Step(fp, w, Restart);
    var w2 := Step(fp, w1, RestoreRequested);
    assert w2.session.restoreOnLoad;
    assert RestoresFrom(w2.session, w2.store, fp, d);
    var events := [Restart, RestoreRequested, FileUploaded(d)];
    assert events[1..] == [RestoreRequested, FileUploaded(d)];
    assert events[1..][1..] == [FileUploaded(d)];
    assert Run(fp, w2, [FileUploaded(d)]) == Upload(fp, w2, d);
  }

  /** No progress leaks between datasets: uploading a dataset whose fingerprint
      the record does not carry starts every row unscored, even with a restore
      requested, and (with at least one row) replaces the old record. */
  lemma MismatchedUploadStartsFresh(fp: Dataset -> Fingerprint, w: World, d: Dataset)
    requires w.session.df != Some(d) && HasRequiredColumns(d)
    requires w.store.Some? ==> w.store.value.fileHash != Some(fp(d))
    ensures var r := Step(fp, w, FileUploaded(d));
      && r.session.scores == AllUnscored(|d.rows|)
      && r.session.index == 0
      && (|d.rows| > 0 ==> r.store.Some? && r.store.value.fileHash == Some(fp(d))
                           && r.store.value.scores == AllUnscored(|d.rows|))
  {
  }
}

=== FILE: persistence.dfy ===
/** Saving the session to the durable record and restoring it from there,
    plus the dirtiness-gated auto-save. */
module Persistence {
  import opened Wrappers
  import opened Datasets
  import opened Store
  import opened SessionState

  datatype WriteOutcome = WriteOutcome(store: Option<Record>, ok: bool)
  datatype SaveOutcome = SaveOutcome(world: World, ok: bool)
  datatype LoadOutcome = LoadOutcome(session: Session, restored: bool)

  /** Writes the whole record, replacing any previous one, when a dataset is
      loaded and there are scores; otherwise writes nothing and reports false. */
  function SaveToFile(s: Session, store: Option<Record>): (r: WriteOutcome)
    ensures r.ok <==> CanSave(s)
    ensures !r.ok ==> r.store == store
    ensures r.ok ==> r.store.Some? && r.store.value.scores == s.scores && r.store.value.essayPrompt == Some(s.prompt)
                     && r.store.value.currentIndex == Some(s.index) && r.store.value.fileHash == s.fileHash
  {
    if CanSave(s) then WriteOutcome(Some(RecordOf(s)), true) else WriteOutcome(store, false)
  }

  /** Takes the snapshot and writes the record; under the same guard as the
      write, so the snapshot and the record always change together. */
  function SaveProgress(w: World): (r: SaveOutcome)
    ensures r.ok <==> CanSave(w.session)
    ensures !r.ok ==> r.world == w
    ensures r.ok ==> r.world.session == w.session.(saved := Some(w.session.scores))
    ensures r.ok ==> r.world.store == Some(RecordOf(w.session))
  {
    if CanSave(w.session) then
      var written := SaveToFile(w.session, w.store);
      SaveOutcome(World(w.session.(saved := Some(w.session.scores)), written.store), written.ok)
    else
      SaveOutcome(w, false)
  }

  /** Whether `store` holds a record for the session's fingerprint. */
  predicate Matches(s: Session, store: Option<Record>) {
    store.Some? && HashIsSet(s.fileHash) && store.value.fileHash == s.fileHash
  }

  /** Restores scores, prompt and index from the record, and the snapshot from
      a copy of its scores, only when the session's fingerprint is set and
      equals the record's; a missing prompt reads as "" and a missing index
      as 0. Otherwise the session is returned untouched. */
  function LoadFromFile(s: Session, store: Option<Record>): (r: LoadOutcome)
    ensures r.restored <==> Matches(s, store)
    ensures !r.restored ==> r.session == s
    ensures r.restored ==> r.session.scores == store.value.scores && r.session.saved == Some(r.session.scores)
    ensures r.restored && store.value.essayPrompt.None? ==> r.session.prompt == ""
    ensures r.restored && store.value.essayPrompt.Some? ==> r.session.prompt == store.value.essayPrompt.value
    ensures r.restored && store.value.currentIndex.None? ==> r.session.index == 0
    ensures r.restored && store.value.currentIndex.Some? ==> r.session.index == store.value.currentIndex.value
    ensures r.session.df == s.df && r.session.fileHash == s.fileHash && r.session.restoreOnLoad == s.restoreOnLoad
  {
    if Matches(s, store) then
      var rec := store.value;
      LoadOutcome(s.(scores := rec.scores,
                     prompt := rec.essayPrompt.GetOr(""),
                     index := rec.currentIndex.GetOr(0),
                     saved := Some(rec.scores)), true)
    else
      LoadOutcome(s, false)
  }

  /** The auto-save check run on every rerun: saves only when a dataset is
      loaded and the scores differ from the snapshot. */
  function AutoSave(w: World): (r: World)
    ensures w.session.df.None? || w.session.saved == Some(w.session.scores) ==> r == w
    ensures CanSave(w.session) && w.session.saved != Some(w.session.scores) ==>
              r.session == w.session.(saved := Some(w.session.scores)) && r.store == Some(RecordOf(w.session))
    ensures CanSave(w.session) ==> r.session.saved == Some(r.session.scores)
    ensures !CanSave(w.session) ==> r == w
    ensures r.session.scores == w.session.scores && r.session.prompt == w.session.prompt && r.session.index == w.session.index
  {
    if w.session.df.Some? && w.session.saved != Some(w.session.scores) then SaveProgress(w).world else w
  }

  /** A second auto-save with no change in between does nothing. */
  lemma AutoSaveIsIdempotent(w: World)
    ensures AutoSave(AutoSave(w)) == AutoSave(w)
  {
  }

  /** Saving twice in a row leaves the same world as saving once. */
  lemma SaveProgressIsIdempotent(w: World)
    ensures SaveProgress(SaveProgress(w).world) == SaveProgress(w)
  {
  }

  /** Round trip: a record written by a save is restored, by any session with
      the same (set) fingerprint, to exactly the saved scores, prompt and
      index, with the snapshot equal to the scores. */
  lemma SaveThenLoadRestores(w: World, t: Session)
    requires CanSave(w.session) && HashIsSet(w.session.fileHash)
    requires t.fileHash == w.session.fileHash
    ensures var loaded := LoadFromFile(t, SaveProgress(w).world.store);
      && loaded.restored
      && loaded.session.scores == w.session.scores
      && loaded.session.prompt == w.session.prompt
      && loaded.session.index == w.session.index
      && loaded.session.saved == Some(w.session.scores)
  {
  }
}

=== FILE: scores.dfy ===
/** Scores: the unscored sentinel, the 0..15 range, the five tiers with their
    default scores, the progress count and the export column. */
module Scores {

  /** The sentinel stored for a submission nobody has scored yet. */
  const Unscored: int := -1

  /** A score a teacher can click: one of the sixteen buttons 0..15. */
  type ScoreValue = v: int | 0 <= v <= 15

  /** A stored entry is either the sentinel or a clickable score. */
  predicate ValidScore(v: int) {
    v == Unscored || 0 <= v <= 15
  }

  predicate ValidScores(s: seq<int>) {
    forall i :: 0 <= i < |s| ==> ValidScore(s[i])
  }

  /** The five coarse tiers of the first selection step, lowest first. */
  datatype Tier = Poor | LowerMiddle | Middle | UpperMiddle | Excellent

  /** The exact score a tier proposes for a row that has none yet. */
  function TierDefault(t: Tier): ScoreValue {
    match t
    case Poor => 2
    case LowerMiddle => 5
    case Middle => 8
    case UpperMiddle => 11
    case Excellent => 14
  }

  function Rank(t: Tier): nat {
    match t
    case Poor => 0
    case LowerMiddle => 1
    case Middle => 2
    case UpperMiddle => 3
    case Excellent => 4
  }

  /** The tier defaults are exactly 2, 5, 8, 11 and 14. */
  lemma TierDefaultsAreExactly(v: int)
    ensures (exists t :: TierDefault(t) == v) <==> v in {2, 5, 8, 11, 14}
  {
    if v == 2 {
      assert TierDefault(Poor) == v;
    } else if v == 5 {
      assert TierDefault(LowerMiddle) == v;
    } else if v == 8 {
      assert TierDefault(Middle) == v;
    } else if v == 11 {
      assert TierDefault(UpperMiddle) == v;
    } else if v == 14 {
      assert TierDefault(Excellent) == v;
    }
  }

  /** A higher tier always proposes a strictly higher score. */
  lemma TierDefaultIsMonotonic(t: Tier, u: Tier)
    ensures Rank(t) < Rank(u) <==> TierDefault(t) < TierDefault(u)
  {
  }

  /** `[-1] * n`: the score list of a freshly loaded dataset of n rows. */
  function AllUnscored(n: nat): (r: seq<int>)
    ensures |r| == n
    ensures forall i :: 0 <= i < n ==> r[i] == Unscored
  {
    seq(n, _ => Unscored)
  }

  function Graded(v: int): nat {
    if v != Unscored then 1 else 0
  }

  /** The progress count: how many entries are not the sentinel. */
  function GradedCount(s: seq<int>): (r: nat)
    ensures r <= |s|
    ensures r == 0 <==> forall i :: 0 <= i < |s| ==> s[i] == Unscored
    ensures r == |s| <==> forall i :: 0 <= i < |s| ==> s[i] != Unscored
  {
    if s == [] then 0 else Graded(s[0]) + GradedCount(s[1..])
  }

  /** Independent reading of the progress count: every entry except the
      sentinel's occurrences. */
  lemma {:induction false} GradedCountIsNonSentinelCount(s: seq<int>)
    ensures GradedCount(s) == |s| - multiset(s)[Unscored]
  {
    if s != [] {
      assert s == [s[0]] + s[1..];
      assert multiset(s) == multiset{s[0]} + multiset(s[1..]);
      GradedCountIsNonSentinelCount(s[1..]);
    }
  }

  /** Writing one entry changes the progress count by that entry alone. */
  lemma {:induction false} GradedCountAfterWrite(s: seq<int>, k: nat, v: int)
    requires k < |s|
    ensures GradedCount(s[k := v]) == GradedCount(s) - Graded(s[k]) + Graded(v)
  {
    if k == 0 {
      assert s[k := v][1..] == s[1..];
    } else {
      assert s[k := v][1..] == s[1..][k - 1 := v];
      GradedCountAfterWrite(s[1..], k - 1, v);
    }
  }

  /** The text an unscored row shows in the exported sheet. */
  const Placeholder: string := "未批改"

  /** A cell of the exported score column: the placeholder text or a number. */
  datatype Cell = Text(text: string) | Number(value: int)

  function ExportCell(v: int): Cell {
    if v == Unscored then Text(Placeholder) else Number(v)
  }

  /** Reading an exported cell back: any text stands for "not scored". */
  function ImportCell(c: Cell): int {
    match c
    case Text(_) => Unscored
    case Number(v) => v
  }

  function ExportColumn(s: seq<int>): seq<Cell> {
    seq(|s|, i requires 0 <= i < |s| => ExportCell(s[i]))
  }

  function ImportColumn(cells: seq<Cell>): seq<int> {
    seq(|cells|, i requires 0 <= i < |cells| => ImportCell(cells[i]))
  }

  /** The exported column shows the placeholder exactly for the unscored rows,
      keeps every other score unchanged, and reads back to the scores. */
  lemma ExportColumnRoundTrip(s: seq<int>)
    ensures |ExportColumn(s)| == |s|
    ensures forall i :: 0 <= i < |s| ==> (ExportColumn(s)[i] == Text(Placeholder) <==> s[i] == Unscored)
    ensures forall i :: 0 <= i < |s| && s[i] != Unscored ==> ExportColumn(s)[i] == Number(s[i])
    ensures ImportColumn(ExportColumn(s)) == s
  {
  }

  /** The rows that export as a number are exactly the ones the progress count counts. */
  lemma {:induction false} ExportedNumbersAreGraded(s: seq<int>)
    ensures GradedCount(s) == |s| - multiset(ExportColumn(s))[Text(Placeholder)]
  {
    if s != [] {
      assert ExportColumn(s) == [ExportCell(s[0])] + ExportColumn(s[1..]);
      assert multiset(ExportColumn(s)) == multiset{ExportCell(s[0])} + multiset(ExportColumn(s[1..]));
      ExportedNumbersAreGraded(s[1..]);
    }
  }
}

=== FILE: session.dfy ===
/** The in-memory grading session and the world it lives in (session plus the
    one durable record). */
module SessionState {
  import opened Wrappers
  import opened Datasets
  import opened Store

  /** The session variables the grading logic reads and writes:
      the loaded dataset (none before the first upload), the 0-based row on
      screen, one score per row (-1 for unscored), the snapshot taken at the
      last save (none before the first one), the prompt text, the fingerprint
      of the last uploaded file, and the flag recording a restore request. */
  datatype Session = Session(
    df: Option<Dataset>,
    index: int,
    scores: seq<int>,
    saved: Option<seq<int>>,
    prompt: string,
    fileHash: Option<Fingerprint>,
    restoreOnLoad: bool)

  /** A session together with the durable record (absent when no file exists
      or the file cannot be read). */
  datatype World = World(session: Session, store: Option<Record>)

  /** The state of a new browser session, before anything is uploaded. The
      score list starts as an empty (falsy) container. */
  const Init: Session := Session(None, 0, [], None, "", None, false)

  /** The guard of both save functions: a dataset is loaded and the score list is non-empty. */
  predicate CanSave(s: Session) {
    s.df.Some? && |s.scores| > 0
  }

  /** The record a save writes for session `s`. */
  function RecordOf(s: Session): Record {
    Record(s.scores, Some(s.prompt), Some(s.index), s.fileHash)
  }

  /** The number of rows of the loaded dataset, 0 when there is none. */
  function Total(s: Session): nat {
    if s.df.Some? then |s.df.value.rows| else 0
  }
}

=== FILE: store.dfy ===
/** The durable record: the contents of the one auto-save file. */
module Store {
  import opened Wrappers
  import opened Datasets
  import opened Scores

  /** What the save writes and the restore reads. The restore tolerates a
      missing prompt, index or fingerprint, so those are optional; the time of
      the save is display-only and not part of the model. */
  datatype Record = Record(
    scores: seq<int>,
    essayPrompt: Option<string>,
    currentIndex: Option<int>,
    fileHash: Option<Fingerprint>)

  /** A record the program could have written with the corrected upload:
      valid scores, an index inside them, and one score per row of every
      dataset carrying its fingerprint. (The upload as written can leave a
      record that does not fit; see the findings.) */
  ghost predicate RecordFits(fp: Dataset -> Fingerprint, rec: Record) {
    && ValidScores(rec.scores)
    && (rec.currentIndex.Some? ==> 0 <= rec.currentIndex.value < |rec.scores|)
    && forall d :: rec.fileHash == Some(fp(d)) ==> |d.rows| == |rec.scores|
  }
}

=== FILE: uploading.dfy ===
/** The restore request and the upload of a dataset, which binds the session
    to the new dataset, restores matching progress when asked to, and saves. */
module Uploading {
  import opened Wrappers
  import opened Datasets
  import opened Scores
  import opened Store
  import opened SessionState
  import opened Persistence

  /** The restore button is offered only while no dataset is loaded and a saved
      record exists; pressing it only sets the flag, since the restore needs
      the dataset's fingerprint. */
  function RequestRestore(w: World): (r: World)
    ensures r.store == w.store
    ensures r.session == w.session.(restoreOnLoad := r.session.restoreOnLoad)
    ensures r.session.restoreOnLoad <==> w.session.restoreOnLoad || (w.session.df.None? && w.store.Some?)
  {
    if w.session.df.None? && w.store.Some? then w.(session := w.session.(restoreOnLoad := true)) else w
  }

  /** The session bound to a newly loaded dataset `d`: first row, every row
      unscored, snapshot equal to the scores, and `d`'s fingerprint. */
  function Fresh(s: Session, d: Dataset, h: Fingerprint): Session {
    s.(df := Some(d), index := 0, scores := AllUnscored(|d.rows|),
       saved := Some(AllUnscored(|d.rows|)), fileHash := Some(h))
  }

  /** Whether uploading `d` restores progress from `store`: a restore was
      requested and the record carries `d`'s (set) fingerprint. */
  predicate RestoresFrom(s: Session, store: Option<Record>, fp: Dataset -> Fingerprint, d: Dataset) {
    s.restoreOnLoad && Matches(Fresh(s, d, fp(d)), store)
  }

  /** Uploading the dataset `d`.
      - The same content as the loaded dataset: only the fingerprint is
        recomputed, and progress is kept.
      - A dataset lacking a required column is refused and nothing changes.
        (The fingerprint is recorded only after this check; see the findings.)
      - Otherwise the session is rebound to `d` with fresh scores. When a
        restore was requested and the record matches `d`'s fingerprint, the
        record's scores, prompt and index replace the fresh ones and the flag
        is cleared; on a mismatch the fresh state stays and the flag stays set.
        Either way the session is then saved, so the record afterwards carries
        `d`'s fingerprint whenever there is at least one score. */
  function Upload(fp: Dataset -> Fingerprint, w: World, d: Dataset): (r: World)
    ensures w.session.df == Some(d) ==>
              r.store == w.store && r.session == w.session.(fileHash := Some(fp(d)))
    ensures w.session.df != Some(d) && !HasRequiredColumns(d) ==> r == w
    ensures w.session.df != Some(d) && HasRequiredColumns(d) ==>
              && r.session.df == Some(d)
              && r.session.fileHash == Some(fp(d))
              && r.session.saved == Some(r.session.scores)
              && (r.session.restoreOnLoad <==> w.session.restoreOnLoad && !RestoresFrom(w.session, w.store, fp, d))
              && (RestoresFrom(w.session, w.store, fp, d) ==>
                    && r.session.scores == w.store.value.scores
                    && r.session.prompt == w.store.value.essayPrompt.GetOr("")
                    && r.session.index == w.store.value.currentIndex.GetOr(0))
              && (!RestoresFrom(w.session, w.store, fp, d) ==>
                    && r.session.scores == AllUnscored(|d.rows|)
                    && r.session.prompt == w.session.prompt
                    && r.session.index == 0)
              && (|r.session.scores| > 0 ==> r.store == Some(RecordOf(r.session)))
              && (|r.session.scores| == 0 ==> r.store == w.store)
  {
    var s := w.session;
    if s.df == Some(d) then
      w.(session := s.(fileHash := Some(fp(d))))
    else if !HasRequiredColumns(d) then
      w
    else
      var reset := Fresh(s, d, fp(d));
      var loaded := if s.restoreOnLoad then LoadFromFile(reset, w.store) else LoadOutcome(reset, false);
      var bound := if loaded.restored then loaded.session.(restoreOnLoad := false) else loaded.session;
      SaveProgress(World(bound, w.store)).world
  }
}

=== FILE: wrappers.dfy ===
/** Optional values: state that exists only once a dataset is loaded, and the
    fields a stored record may lack. */
module Wrappers {

  datatype Option<+T> = None | Some(value: T) {

    /** The wrapped value, or `default` when there is none; this is how a
        missing key of the stored record is read (`dict.get(key, default)`). */
    function GetOr(default: T): T {
      match this
      case Some(v) => v
      case None => default
    }
  }
}
